=== FILE: README.md ===
# m-tracker core, modelled in Dafny

m-tracker is a personal income and expense tracker built with React Native and Firebase. This project models the pure logic in its contexts and utilities, and proves properties about it:

- **Amount formatting.** `formatNumber` takes the magnitude of a value. It coerces missing or non-numeric input to 0 and writes the result in decimal, with a comma between groups of three digits. The comma-inserting regular expression is modelled position by position (`NumberFormat.InsertFrom`). It is proved equal to grouping from the right (`NumberFormat.Group`).
- **Monthly budgets.** `getMonthKey` builds the `YYYY-MM` key for a month. `getBudgetForMonth` looks a month up in the budgets map. `setMonthlyBudget` merges a record into the month's document: `monthKey`, `totalBudget`, `active`, `updatedAt`, and a `createdAt` that survives later saves.
- **Transactions.** `cleanData` drops fields whose value is `undefined`. `addTransaction` chooses a document id and writes the cleaned record. `updateTransaction` merges into an existing document. `deleteTransaction` removes one.
- **Categories.** The default expense and income tables, and `addCategory`:
  - it trims the name and ignores a blank one;
  - the id is the lower-cased label with each white-space run turned into `-`;
  - the dedup check compares labels without regard to case;
  - a new category is appended to exactly one of the two lists.
- **Currencies.** The `CURRENCIES` table. The selected code resolves to its entry, or to the first entry (the Naira) when the code is unknown.

JavaScript values are modelled by `JsValue.Value`: `undefined`, `null`, booleans, integer numbers, `NaN` and strings. An object or database document is a `map<string, Value>`. The signed-in user's data is the map the snapshot listeners deliver:

- budgets, keyed by month key;
- transactions, keyed by document id.

Each write is the map update the database performs: `setDoc` replaces a document, and `setDoc` with `merge` or `updateDoc` overrides the fields given. Timestamps are parameters of the operations:

- `new Date().toISOString()` is the string `now`;
- `Date.now()` is the natural number `nowMillis`.

The signed-in user's uid is the parameter `uid`. `requireUid` and `requireUserId` reject a missing or empty uid with `NotLoggedIn`.

`scenarios.dfy` works through concrete cases: "2025-01", "1,234,567", re-adding " food ", and "Other expense".

## Model

| member | source | states |
|---|---|---|
| NumberFormat.Magnitude | utils/Number.js:1-2 | A missing argument, `null` and `NaN` give 0. An integer gives its absolute value: the default parameter, `Number(n) \|\| 0` and `Math.abs` |
| NumberFormat.InsertFrom | utils/Number.js:4 | The replacement `replace(/\B(?=(\d{3})+(?!\d))/g, ",")`, read position by position. `NumberFormat.RegexIsGrouping` proves it equal to grouping from the right |
| NumberFormat.CommaBefore | utils/Number.js:4 | Where `\B(?=(\d{3})+(?!\d))` matches in a digit string: strictly inside it, with a positive multiple of three digits to its right |
| NumberFormat.RegexIsGrouping | utils/Number.js:4 | Inserting a comma at every `\B` position with a positive multiple of three digits to its right is the same as grouping the digits in threes from the right |
| NumberFormat.GroupIsGrouped | utils/Number.js:4 | A grouped numeral never starts or ends with a comma. Reading from the right, every fourth character is a comma and all others are digits. So the first group has 1-3 digits and every later group exactly 3 |
| NumberFormat.StripCommasOfGroup | utils/Number.js:3-4 | Removing the commas from a grouped numeral gives back the digit string |
| NumberFormat.FormatNumber | utils/Number.js:1-4 | The output has the grouped shape, and its digits are the decimal numeral of the magnitude |
| NumberFormat.FormatNumberRoundTrip | utils/Number.js:2-4 | Stripping the commas and parsing the digits gives `\|n\|` for every integer `n` |
| NumberFormat.FormatNumberIgnoresSign | utils/Number.js:2 | `formatNumber(-n) == formatNumber(n)` |
| NumberFormat.FormatNumberHasComma | utils/Number.js:3-4 | The output contains a comma if and only if `\|n\| >= 1000` |
| NumberFormat.FormatNumberLength | utils/Number.js:3-4 | The output is as long as the magnitude's `d` digits plus `(d - 1) / 3` commas |
| NumberFormat.FormatNumberOfNonNumeric | utils/Number.js:1-2 | A missing argument, `null`, `NaN` or a string that the model's `Number()` reads as NaN all print as "0" |
| Scenarios.FormatNumberSmallExample | utils/Number.js:3-4 | 999 prints as "999" |
| Scenarios.FormatNumberThousandExample | utils/Number.js:3-4 | 1000 prints as "1,000" |
| Scenarios.FormatNumberMillionsExample | utils/Number.js:2-4 | 1234567 and -1234567 both print as "1,234,567" |
| Decimal.Digits | utils/Number.js:3 | `toString` of a natural number: at least one character, all digits, and no leading zero unless the number is 0. `Decimal.ParseDigits` proves `Parse` reads it back |
| Decimal.ParseDigits | utils/Number.js:3 | Reading back the numeral `toString` writes for a natural number gives that number |
| Decimal.DigitsInjective | utils/Number.js:3 | Different natural numbers have different numerals |
| Decimal.DigitsLength | utils/Number.js:3 | A numeral has at most `k` digits if and only if the number is below `10^k` |
| Decimal.IntText | context/BudgetContext.jsx:23 | The text of an integer in a template (`${y}`): a `-` for a negative number, then the digits. `Decimal.IntTextRoundTrip` proves `ParseIntText` reads it back |
| Decimal.IntTextRoundTrip | context/BudgetContext.jsx:21-23 | The text of a year (`${y}`) reads back as that year, negative years included |
| JsValue.Truthy | context/BudgetContext.jsx:82 | The truthiness behind `\|\|` and `if (!x)`: `undefined`, `null`, `false`, 0, `NaN` and "" are falsy. `Budget.CreatedAt` and `Transactions.ChooseId` state its use at each `\|\|` |
| JsValue.SignedIn | context/BudgetContext.jsx:61-65 | The `if (!uid)` guard of `requireUid` (and of `requireUserId`, context/TransactionContext.js lines 105-109): a uid that is present and non-empty. `Budget.SetMonthlyBudget` fails exactly when it does not hold |
| JsValue.ToNumber | utils/Number.js:2 | `Number(x)`: an integer is itself, `null` is 0, `undefined` and `NaN` are NaN |
| JsValue.StringToNumber | utils/Number.js:2 | `Number(s)`: a blank string is 0. A numeric result needs at least one digit in the trimmed text |
| JsValue.FromNumber | context/BudgetContext.jsx:79 | Storing the result of `Number(totalBudget)` loses nothing: converting the stored value again gives the same result |
| JsValue.NumberOfIntText | utils/Number.js:2-3 | `Number(String(i)) == i` for every integer |
| Strings.PadStart | context/BudgetContext.jsx:22 | `padStart(2, "0")`. `Strings.PadStartShape` states its shape, and `MonthKeys.ZeroPadKeepsValue` proves that zero padding keeps the value of a numeral |
| Strings.PadStartShape | context/BudgetContext.jsx:22 | `padStart` reaches the width, ends with the original text and fills the front with the pad character |
| MonthKeys.ZeroPadKeepsValue | context/BudgetContext.jsx:22 | Padding a numeral with zeros in front keeps it all digits and keeps its value |
| MonthKeys.MonthText | context/BudgetContext.jsx:22 | `String(date.getMonth() + 1).padStart(2, "0")`. `MonthKeys.MonthTextShape` states that it is two digits reading as the 1-based month |
| MonthKeys.MonthTextShape | context/BudgetContext.jsx:22 | The month part is two digits that read as the 1-based month |
| MonthKeys.MonthKey | context/BudgetContext.jsx:20-24 | `getMonthKey`: the year's text, `-`, and the zero-padded 1-based month. `MonthKeys.MonthKeyShape` states its shape, and `MonthKeys.MonthKeyRoundTrip` proves `ParseMonthKey` inverts it |
| MonthKeys.MonthKeyShape | context/BudgetContext.jsx:20-24 | The key is the year's text, then `-`, then the two-digit month |
| MonthKeys.MonthKeyFourDigitYear | context/BudgetContext.jsx:20-24 | With a four-digit year, the key has length 7 and starts with the year's four digits |
| MonthKeys.ParseMonthKey | context/BudgetContext.jsx:23 | A key is read back only if it has a `-` three characters from the end |
| MonthKeys.MonthKeyRoundTrip | context/BudgetContext.jsx:20-24 | Reading a key back gives the year and 0-based month it was built from |
| MonthKeys.MonthKeyInjective | context/BudgetContext.jsx:20-24 | Different (year, month) pairs get different keys |
| Scenarios.JanuaryKeyExample | context/BudgetContext.jsx:22-23 | Year 2025, month index 0 gives "2025-01" |
| Scenarios.DecemberKeyExample | context/BudgetContext.jsx:22-23 | Year 2025, month index 11 gives "2025-12" |
| Budget.GetBudgetForMonth | context/BudgetContext.jsx:67 | Returns the stored record if and only if the month is present, and null (`None`) otherwise. An absent month is never a zero budget |
| Budget.CreatedAt | context/BudgetContext.jsx:82 | A truthy stored `createdAt` is kept. In every other case, including a stored falsy value, the save time is used |
| Budget.BudgetRecord | context/BudgetContext.jsx:77-83 | The record written has exactly the fields `monthKey`, `totalBudget`, `active`, `updatedAt`, `createdAt` |
| Budget.Merge | context/BudgetContext.jsx:75-85 | `setDoc` with `{ merge: true }`: the document keeps its fields and gains the record's. Written fields take the record's values, and the others keep theirs |
| Budget.SetMonthlyBudget | context/BudgetContext.jsx:70-86 | Fails exactly when nobody is signed in. Otherwise it adds the month key and leaves every other month unchanged. It sets `monthKey`, `Number(totalBudget)`, `active`, `updatedAt` and `createdAt`, and the merge keeps the month's other fields |
| Budget.SaveThenGet | context/BudgetContext.jsx:67-86 | After a save, `getBudgetForMonth` finds the month, and its plan is active |
| Budget.CreatedAtPreserved | context/BudgetContext.jsx:81-82 | A second save keeps the first save's `createdAt` and takes the new `updatedAt` |
| Transactions.CleanData | context/TransactionContext.js:24-32 | The output keys are exactly the input keys whose value is not `undefined`, with their values unchanged |
| Transactions.CleanDataIdempotent | context/TransactionContext.js:24-32 | Cleaning twice is cleaning once, and the result holds no `undefined` |
| Transactions.ChooseId | context/TransactionContext.js:115 | The id is `tx.id` when truthy, otherwise the decimal millisecond time. It is always truthy |
| Transactions.AddTransaction | context/TransactionContext.js:113-120 | Succeeds exactly when someone is signed in and the chosen id is a string. It rejects when nobody is signed in. Otherwise it writes the cleaned record under the chosen id, whose `id` field overrides any `id` in `tx`. Every other document is unchanged |
| Transactions.AddTransactionWithId | context/TransactionContext.js:115-119 | A non-empty string `tx.id` names the stored document |
| Transactions.AddTransactionWithoutId | context/TransactionContext.js:115-119 | Without an id, or with a falsy one (`""`, `null`, 0), the record is stored under the time stamp and carries it as `id` |
| Transactions.UpdateTransaction | context/TransactionContext.js:122-128 | Succeeds exactly when someone is signed in and the document exists. Otherwise it merges the defined fields of `updates` and keeps the document's other fields and every other document |
| Transactions.DeleteTransaction | context/TransactionContext.js:130-134 | Succeeds exactly when someone is signed in. It then removes exactly that document and keeps the rest |
| Transactions.AddThenDelete | context/TransactionContext.js:113-134 | Deleting the document an add just wrote gives back the store as it was, minus that id |
| Transactions.OperationsKeepStoreClean | context/TransactionContext.js:113-134 | Add, update and delete never put an `undefined` field into the store |
| Strings.IsSpace | context/TransactionContext.js:139-141 | The white space of `trim()` and of `\s`: ECMAScript's WhiteSpace and LineTerminator code points. `Strings.Trim` and `Strings.DashSpaceRuns` state what is removed or replaced in its terms |
| Strings.Trim | context/TransactionContext.js:139 | `trim()` leaves no white space at either end, and gives "" exactly for an all-blank name |
| Strings.TrimInfix | context/TransactionContext.js:139 | The trimmed name is one contiguous piece of the input, with only white space cut off before and after it |
| Strings.TrimIdempotent | context/TransactionContext.js:139 | Trimming twice is trimming once |
| Strings.DashSpaceRuns | context/TransactionContext.js:141 | `replace(/\s+/g, "-")` leaves no white space and never lengthens the text |
| Strings.DashSpaceRunsCharwise | context/TransactionContext.js:141 | The same replacement, read one character at a time, emits one `-` per white-space run |
| Strings.LowerStr | context/TransactionContext.js:141 | `toLowerCase()`: the same length, with each character lower-cased on its own (ASCII letters only) |
| Strings.LowerStrIdempotent | context/TransactionContext.js:141 | Lower-casing leaves no upper-case letter and is idempotent |
| Categories.Slug | context/TransactionContext.js:141 | `label.toLowerCase().replace(/\s+/g, "-")`. `Categories.SlugShape` states that the id has no white space or capital, and `Categories.SlugIdempotent` that slugging an id changes nothing |
| Categories.SlugShape | context/TransactionContext.js:141 | The id contains no white space and no upper-case letter |
| Categories.SlugIdempotent | context/TransactionContext.js:141 | Slugging an id gives the same id |
| Categories.SlugOfTwoWords | context/TransactionContext.js:141 | Two words with a space give the two lower-cased words joined by one dash |
| Categories.SameLabel | context/TransactionContext.js:145 | `c.label.toLowerCase() === label.toLowerCase()`. `Categories.AnyLabelMatches` states the scan in its terms |
| Categories.AnyLabelMatches | context/TransactionContext.js:145 | `prev.some(...)` is true if and only if some label is equal to the name, ignoring case |
| Categories.AppendCategory | context/TransactionContext.js:144-154 | A present label leaves the list unchanged. Otherwise exactly one `{id, label}` is appended at the end, in order |
| Categories.AddCategory | context/TransactionContext.js:138-156 | A blank name changes nothing. Kind "income" touches only the income list, and any other kind only the expense list |
| Categories.AddCategoryEffect | context/TransactionContext.js:138-156 | On the chosen list, a blank or already present label changes nothing. Otherwise the trimmed label and its slug are appended |
| Categories.AddCategoryKeepsWellKept | context/TransactionContext.js:139-155 | Lists whose labels are trimmed, non-empty and distinct ignoring case stay that way |
| Categories.DefaultsWellKept | context/TransactionContext.js:35-50 | The default expense and income lists are well kept: their labels are non-empty, trimmed and distinct up to case |
| Categories.DefaultIdsDistinct | context/TransactionContext.js:35-50 | The default category ids are pairwise distinct, within and across the two tables |
| Scenarios.AddExistingLabelExample | context/TransactionContext.js:139-152 | Adding " food " as an expense leaves the defaults unchanged |
| Scenarios.SlugCollisionExample | context/TransactionContext.js:141-153 | "Other expense" is appended with id "other-expense", the id the default "Other" already has, because dedup compares labels only |
| CurrencyTable.FindFrom | context/CurrencyContext.jsx:50 | `find` returns the first entry with the code, or nothing when no entry has it |
| CurrencyTable.Resolve | context/CurrencyContext.jsx:50 | The result is always a table entry. A known code gives its entry, and an unknown code gives the first entry |
| CurrencyTable.ResolveKnown | context/CurrencyContext.jsx:50 | Each table code resolves to its own entry |
| CurrencyTable.ResolveUnknown | context/CurrencyContext.jsx:50 | A code outside the table resolves to the Naira |
| CurrencyTable.InitialSymbol | context/CurrencyContext.jsx:23 | With the initial code "NGN", the symbol is the Naira sign |

## Behaviour worth noting

- Category ids: `replace(/\s+/g, "-")` turns each run of white space into a single `-`. This covers any of JavaScript's `\s` characters, not only spaces (`Strings.DashSpaceRunsCharwise`).
- Id collisions: labels that are equal up to case are dropped as duplicates, so they never produce a second id. Ids collide when two different labels slug to the same id, as "Other expense" does with the default "Other" (`Scenarios.SlugCollisionExample`).
- Budget `createdAt`: a save keeps the earlier creation time only when the provider's snapshot holds a truthy `createdAt` for that month (`Budget.CreatedAt`).
- Transaction edits: `updateTransaction` merges the defined fields of the update into the stored document and keeps the others (`Transactions.UpdateTransaction`).

## Left out

- Fractional numbers: `Value.Num` holds integers only, so `Math.round` of a fraction and `Number(totalBudget)` on a fraction are not modelled.
- NumberFormat.FormatNumber: `Num` holds exact unbounded integers. JavaScript integers are exact only up to 2^53. Above that, `toString` prints the shortest digits that identify the double and pads with zeros: 2^60 prints as "1152921504606847000", while the model prints all of "1152921504606846976". Magnitudes of 1e21 and above, which `toString` writes in exponential notation, are plain digit strings here. The round-trip rows (`NumberFormat.FormatNumberRoundTrip`, `Decimal.ParseDigits`) therefore describe the source only up to 2^53.
- JsValue.StringToNumber: strings are read as an optional sign followed by decimal digits. Hexadecimal, binary, octal, exponent, fraction and `Infinity` syntax count as `NaN` here, although `Number()` reads them as numbers.
- Strings.LowerStr: `toLowerCase` is modelled on ASCII letters only, through `Strings.Lower`. Other characters are kept unchanged.
- Firestore and Firebase Auth I/O: the listeners, `setDoc`, `updateDoc` and `deleteDoc` are modelled only as the map updates they perform. Asynchrony and failures of the service are not modelled.
- Budget.SetMonthlyBudget: the `createdAt` lookup reads the snapshot the provider last received. The model assumes that snapshot equals the stored data.
- The snapshot mapping `{ id: d.id, ...data }` in the transactions listener is not modelled. It is UI state derived from the store.
- Budget.SetMonthlyBudget: document-path rules are not modelled. `doc(db, "users", uid, "budgets", monthKey)` throws for an empty `monthKey`, and a `monthKey` whose `/` segments leave an odd-length path throws or writes elsewhere. Its one caller passes the output of `getMonthKey` (app/(tabs)/budget.js lines 29 and 68), which is never empty and has no `/`.
- Budget.GetBudgetForMonth: the budgets object is a plain `{}`, so in the source a key such as "toString" or "constructor" reads an inherited member, not `null`. The map here has no such members. `getMonthKey` output never names one.
- Transactions.AddTransaction: a truthy non-string id is an `InvalidDocumentId` error. Document-path rules for string ids are not modelled. `doc(db, "users", uid, "transactions", id)` throws for an empty id, and for an id whose `/` segments leave an odd-length path.
- Transactions.UpdateTransaction: the same document-path rules apply to its `id` and are not modelled. An empty id or an odd path throws in the source but is `NotFound` or an update here.
- Transactions.DeleteTransaction: the same document-path rules are not modelled. An empty id or an odd path throws in the source, so "fails only when nobody is signed in" holds only for valid document ids.
- Transactions.UpdateTransaction: dotted keys in `updates`, which `updateDoc` reads as nested field paths, are treated as plain field names.
- AsyncStorage loading and saving of the chosen currency code is left out because it is I/O. The code is a parameter of `Resolve`.
- `Date.now()` and `new Date().toISOString()` are parameters, not clocks.
- `getMonthKey` takes the year and month index directly, not a `Date`. The default argument `new Date()` is a clock read.
- ThemeContext, AuthContext and the screens under `app/` are left out: they hold UI state and navigation, not logic.

=== FILE: budget.dfy ===
/** Monthly budget plans: the lookup of a month's plan and the record that
    saving a plan merges into the store. */
module Budget {
  import opened Wrappers
  import opened JsValue

  /** A budget document (`{ monthKey, totalBudget, active, createdAt, updatedAt, ... }`). */
  type Doc = Object

  /** The budgets of the signed-in user, keyed by month key. */
  type Budgets = map<string, Doc>

  /** `requireUid()` throws when nobody is signed in. */
  datatype Error = NotLoggedIn

  /** `getBudgetForMonth(monthKey)`: `budgets[monthKey] || null`.  A stored
      document is an object, hence truthy, so the lookup answers the stored
      record when there is one and `null` (here `None`) otherwise -- an absent
      month is never reported as a zero budget. */
  function GetBudgetForMonth(budgets: Budgets, monthKey: string): (r: Option<Doc>)
    ensures r.Some? <==> monthKey in budgets
    ensures r.Some? ==> r.value == budgets[monthKey]
  {
    if monthKey in budgets then Some(budgets[monthKey]) else None
  }

  /** The fields `setMonthlyBudget` writes. */
  const WrittenFields: set<string> := {"monthKey", "totalBudget", "active", "updatedAt", "createdAt"}

  /** `budgets[monthKey]?.createdAt || now`: the stored creation time when it
      is truthy, the save time otherwise. */
  function CreatedAt(budgets: Budgets, monthKey: string, now: string): (v: Value)
    ensures monthKey in budgets && "createdAt" in budgets[monthKey] && Truthy(budgets[monthKey]["createdAt"])
            ==> v == budgets[monthKey]["createdAt"]
    ensures !(monthKey in budgets && "createdAt" in budgets[monthKey] && Truthy(budgets[monthKey]["createdAt"]))
            ==> v == Str(now)
  {
    if monthKey in budgets && "createdAt" in budgets[monthKey] && Truthy(budgets[monthKey]["createdAt"])
    then budgets[monthKey]["createdAt"]
    else Str(now)
  }

  /** The object handed to `setDoc`. */
  function BudgetRecord(budgets: Budgets, monthKey: string, totalBudget: Value, now: string): (d: Doc)
    ensures d.Keys == WrittenFields
  {
    map[
      "monthKey" := Str(monthKey),
      "totalBudget" := FromNumber(ToNumber(totalBudget)),
      "active" := Bool(true),
      "updatedAt" := Str(now),
      "createdAt" := CreatedAt(budgets, monthKey, now)
    ]
  }

  /** `setDoc(ref, record, { merge: true })` on a document: the written fields
      take the record's values, every other field keeps its value. */
  function Merge(existing: Doc, record: Doc): (d: Doc)
    ensures d.Keys == existing.Keys + record.Keys
    ensures forall f :: f in record ==> d[f] == record[f]
    ensures forall f :: f in existing && f !in record ==> d[f] == existing[f]
  {
    existing + record
  }

  /** `setMonthlyBudget(monthKey, { totalBudget })` with the save time `now`
      passed in: the record is merged (`{ merge: true }`) into the month's
      document, creating it when absent.  The store is assumed to be the
      snapshot the provider last received. */
  function SetMonthlyBudget(budgets: Budgets, uid: Option<string>, monthKey: string,
                            totalBudget: Value, now: string): (r: Result<Budgets, Error>)
    ensures r.Err? <==> !SignedIn(uid)
    ensures r.Ok? ==>
      var b := r.value;
      && b.Keys == budgets.Keys + {monthKey}
      && (forall k :: k in budgets && k != monthKey ==> b[k] == budgets[k])
      && (monthKey in budgets ==> b[monthKey].Keys == budgets[monthKey].Keys + WrittenFields)
      && (monthKey !in budgets ==> b[monthKey].Keys == WrittenFields)
      && b[monthKey]["monthKey"] == Str(monthKey)
      && b[monthKey]["totalBudget"] == FromNumber(ToNumber(totalBudget))
      && b[monthKey]["active"] == Bool(true)
      && b[monthKey]["updatedAt"] == Str(now)
      && b[monthKey]["createdAt"] == CreatedAt(budgets, monthKey, now)
      && (forall f :: monthKey in budgets && f in budgets[monthKey] && f !in WrittenFields
                      ==> b[monthKey][f] == budgets[monthKey][f])
  {
    if !SignedIn(uid) then Err(NotLoggedIn)
    else
      var existing := if monthKey in budgets then budgets[monthKey] else map[];
      var record := BudgetRecord(budgets, monthKey, totalBudget, now);
      assert record["totalBudget"] == FromNumber(ToNumber(totalBudget));
      Ok(budgets[monthKey := Merge(existing, record)])
  }

  /** After a save, the month's plan is found, and it is active. */
  lemma SaveThenGet(budgets: Budgets, uid: Option<string>, monthKey: string, totalBudget: Value, now: string)
    requires SignedIn(uid)
    ensures var r := SetMonthlyBudget(budgets, uid, monthKey, totalBudget, now);
            r.Ok? && GetBudgetForMonth(r.value, monthKey).Some?
            && GetBudgetForMonth(r.value, monthKey).value["active"] == Bool(true)
  {
  }

  /** The creation time of the first save survives every later save, as long
      as the first save time is a non-empty timestamp. */
  lemma {:induction false} CreatedAtPreserved(budgets: Budgets, uid: Option<string>, monthKey: string,
                                              b1: Value, t1: string, b2: Value, t2: string)
    requires SignedIn(uid) && t1 != ""
    ensures var r1 := SetMonthlyBudget(budgets, uid, monthKey, b1, t1);
            var r2 := SetMonthlyBudget(r1.value, uid, monthKey, b2, t2);
            r2.value[monthKey]["createdAt"] == r1.value[monthKey]["createdAt"]
            && r2.value[monthKey]["updatedAt"] == Str(t2)
  {
    var r1 := SetMonthlyBudget(budgets, uid, monthKey, b1, t1);
    var c := r1.value[monthKey]["createdAt"];
    assert Truthy(c);
  }
}

=== FILE: categories.dfy ===
/** The income and expense category lists, their defaults, and `addCategory`. */
module Categories {
  import opened Strings

  /** A category; `name` is the source's `label` field (`label` is a Dafny keyword). */
  datatype Category = Category(id: string, name: string)

  /** The two disjoint lists a category can live in. */
  datatype Lists = Lists(expense: seq<Category>, income: seq<Category>)

  const DefaultExpense: seq<Category> := [
    Category("food", "Food"),
    Category("transport", "Transport"),
    Category("bills", "Bills"),
    Category("shopping", "Shopping"),
    Category("entertainment", "Entertainment"),
    Category("other-expense", "Other")
  ]

  const DefaultIncome: seq<Category> := [
    Category("salary", "Salary"),
    Category("freelance", "Freelance"),
    Category("bonus", "Bonus"),
    Category("investment", "Investment"),
    Category("other-income", "Other income")
  ]

  const Defaults: Lists := Lists(DefaultExpense, DefaultIncome)

  /** `label.toLowerCase().replace(/\s+/g, "-")`. */
  function Slug(text: string): string
  {
    DashSpaceRuns(LowerStr(text))
  }

  /** An id holds no white space and no upper-case letter, and is no longer
      than the label it comes from. */
  lemma SlugShape(text: string)
    ensures NoSpace(Slug(text))
    ensures IsLower(Slug(text))
    ensures |Slug(text)| <= |text|
  {
    LowerStrIdempotent(text);
    DashSpaceRunsKeepsLower(LowerStr(text));
  }

  /** The id of a slug is itself: slugging is idempotent. */
  lemma SlugIdempotent(text: string)
    ensures Slug(Slug(text)) == Slug(text)
  {
    var id := Slug(text);
    SlugShape(text);
    assert LowerStr(id) == id;
    DashSpaceRunsOfNoSpace(id);
  }

  /** Two words separated by one space give the two lower-cased words joined
      by one dash. */
  lemma SlugOfTwoWords(a: string, b: string)
    requires NoSpace(a) && NoSpace(b) && |b| > 0
    ensures Slug(a + " " + b) == LowerStr(a) + "-" + LowerStr(b)
  {
    LowerStrAppend(a + " ", b);
    LowerStrAppend(a, " ");
    assert LowerStr(" ") == " ";
    LowerKeepsNonSpace(a);
    LowerKeepsNonSpace(b);
    DashSpaceRunsJoin(LowerStr(a), LowerStr(b));
  }

  /** Labels compare case-insensitively. */
  predicate SameLabel(a: string, b: string) {
    LowerStr(a) == LowerStr(b)
  }

  /** `prev.some((c) => c.label.toLowerCase() === label.toLowerCase())`,
      scanning the list from the front. */
  function AnyLabelMatches(prev: seq<Category>, text: string): (b: bool)
    ensures b <==> exists i :: 0 <= i < |prev| && SameLabel(prev[i].name, text)
  {
    if |prev| == 0 then false
    else if SameLabel(prev[0].name, text) then true
    else
      var b := AnyLabelMatches(prev[1..], text);
      assert b ==> exists i :: 0 <= i < |prev| && SameLabel(prev[i].name, text) by {
        if b {
          var i :| 0 <= i < |prev[1..]| && SameLabel(prev[1..][i].name, text);
          assert prev[i + 1] == prev[1..][i];
        }
      }
      b
  }

  /** The state updater handed to `setIncomeCategories` / `setExpenseCategories`:
      the list unchanged when the label is already there, otherwise the new
      category appended at the end.  Only labels are compared; ids are not. */
  function AppendCategory(prev: seq<Category>, id: string, text: string): (r: seq<Category>)
    ensures AnyLabelMatches(prev, text) ==> r == prev
    ensures !AnyLabelMatches(prev, text) ==> |r| == |prev| + 1 && r[..|prev|] == prev && r[|prev|] == Category(id, text)
  {
    if AnyLabelMatches(prev, text) then prev else prev + [Category(id, text)]
  }

  /** `addCategory(kind, name)`. */
  function AddCategory(lists: Lists, kind: string, input: string): (r: Lists)
    ensures Trim(input) == "" ==> r == lists
    ensures kind == "income" ==> r.expense == lists.expense
    ensures kind != "income" ==> r.income == lists.income
  {
    var text := Trim(input);
    if text == "" then lists
    else
      var id := Slug(text);
      if kind == "income" then lists.(income := AppendCategory(lists.income, id, text))
      else lists.(expense := AppendCategory(lists.expense, id, text))
  }

  /** The list `kind` selects: "income" picks the income list, any other kind
      the expense list. */
  function Chosen(lists: Lists, kind: string): seq<Category> {
    if kind == "income" then lists.income else lists.expense
  }

  /** What `addCategory` does to the chosen list: nothing for a blank name or
      a label already present (compared case-insensitively); otherwise exactly
      one `{ id, label }` appended, with the trimmed name and its slug as id,
      earlier entries kept in order. */
  lemma AddCategoryEffect(lists: Lists, kind: string, input: string)
    ensures var text := Trim(input);
            var before := Chosen(lists, kind);
            var after := Chosen(AddCategory(lists, kind, input), kind);
            && (text == "" || (exists i :: 0 <= i < |before| && SameLabel(before[i].name, text)) ==> after == before)
            && (text != "" && (forall i :: 0 <= i < |before| ==> !SameLabel(before[i].name, text)) ==>
                  after == before + [Category(Slug(text), text)])
  {
  }

  /** A well-kept list: every label is non-empty and trimmed, and no two
      labels are equal up to case. */
  predicate WellKept(cats: seq<Category>) {
    && (forall i :: 0 <= i < |cats| ==> cats[i].name != "" && Trimmed(cats[i].name))
    && (forall i, j :: 0 <= i < j < |cats| ==> !SameLabel(cats[i].name, cats[j].name))
  }

  lemma AppendKeepsWellKept(prev: seq<Category>, id: string, text: string)
    requires WellKept(prev) && text != "" && Trimmed(text)
    ensures WellKept(AppendCategory(prev, id, text))
  {
    var after := AppendCategory(prev, id, text);
    if !AnyLabelMatches(prev, text) {
      assert after == prev + [Category(id, text)];
      forall i, j | 0 <= i < j < |after|
        ensures !SameLabel(after[i].name, after[j].name)
      {
        if j == |prev| {
          assert after[i] == prev[i];
        } else {
          assert after[i] == prev[i] && after[j] == prev[j];
        }
      }
    }
  }

  /** `addCategory` keeps both lists well kept. */
  lemma AddCategoryKeepsWellKept(lists: Lists, kind: string, input: string)
    requires WellKept(lists.expense) && WellKept(lists.income)
    ensures WellKept(AddCategory(lists, kind, input).expense)
    ensures WellKept(AddCategory(lists, kind, input).income)
  {
    var text := Trim(input);
    if text != "" {
      AppendKeepsWellKept(Chosen(lists, kind), Slug(text), text);
    }
  }

  /** Labels of different lengths are different labels. */
  lemma DifferentLengthLabels(a: string, b: string)
    requires |a| != |b|
    ensures !SameLabel(a, b)
  {
    assert |LowerStr(a)| == |a| && |LowerStr(b)| == |b|;
  }

  /** Every label of a table is non-empty and trimmed. */
  lemma LabelsTrimmed(cats: seq<Category>)
    requires forall i :: 0 <= i < |cats| ==> |cats[i].name| > 0
    requires forall i :: 0 <= i < |cats| ==> 'A' <= cats[i].name[0] <= 'Z'
    requires forall i :: 0 <= i < |cats| ==> 'a' <= cats[i].name[|cats[i].name| - 1] <= 'z'
    ensures forall i :: 0 <= i < |cats| ==> cats[i].name != "" && Trimmed(cats[i].name)
  {
  }

  /** "Bills" and "Other", the two default expense labels of equal length,
      differ in their first letter. */
  lemma BillsIsNotOther()
    ensures !SameLabel("Bills", "Other")
  {
    assert LowerStr("Bills")[0] == 'b';
    assert LowerStr("Other")[0] == 'o';
  }

  lemma ExpenseLabelsDistinct()
    ensures forall i, j :: 0 <= i < j < |DefaultExpense| ==>
              !SameLabel(DefaultExpense[i].name, DefaultExpense[j].name)
  {
    forall i, j | 0 <= i < j < |DefaultExpense|
      ensures !SameLabel(DefaultExpense[i].name, DefaultExpense[j].name)
    {
      if i == 2 && j == 5 {
        BillsIsNotOther();
      } else {
        DifferentLengthLabels(DefaultExpense[i].name, DefaultExpense[j].name);
      }
    }
  }

  lemma IncomeLabelsDistinct()
    ensures forall i, j :: 0 <= i < j < |DefaultIncome| ==>
              !SameLabel(DefaultIncome[i].name, DefaultIncome[j].name)
  {
    forall i, j | 0 <= i < j < |DefaultIncome|
      ensures !SameLabel(DefaultIncome[i].name, DefaultIncome[j].name)
    {
      DifferentLengthLabels(DefaultIncome[i].name, DefaultIncome[j].name);
    }
  }

  /** The lists the provider starts with are well kept, so `addCategory`
      keeps the application's lists well kept from the first render on. */
  lemma DefaultsWellKept()
    ensures WellKept(DefaultExpense) && WellKept(DefaultIncome)
  {
    LabelsTrimmed(DefaultExpense);
    LabelsTrimmed(DefaultIncome);
    ExpenseLabelsDistinct();
    IncomeLabelsDistinct();
  }

  /** No two default categories share an id. */
  lemma DefaultIdsDistinct()
    ensures forall i, j :: 0 <= i < j < |DefaultExpense| ==> DefaultExpense[i].id != DefaultExpense[j].id
    ensures forall i, j :: 0 <= i < j < |DefaultIncome| ==> DefaultIncome[i].id != DefaultIncome[j].id
    ensures forall i, j :: 0 <= i < |DefaultExpense| && 0 <= j < |DefaultIncome| ==> DefaultExpense[i].id != DefaultIncome[j].id
  {
  }
}

=== FILE: currency.dfy ===
/** The currency table and the resolution of the selected currency code. */
module CurrencyTable {
  import opened Wrappers

  /** An entry of the table; `name` is the source's `label` field (`label` is a Dafny keyword). */
  datatype Currency = Currency(code: string, symbol: string, name: string)

  /** `CURRENCIES`; the symbols are U+20A6 NAIRA SIGN, `$`, U+20AC EURO SIGN
      and U+00A3 POUND SIGN. */
  const Currencies: seq<Currency> := [
    Currency("NGN", "\U{20A6}", "\U{20A6} Nigerian Naira"),
    Currency("USD", "$", "$ US Dollar"),
    Currency("EUR", "\U{20AC}", "\U{20AC} Euro"),
    Currency("GBP", "\U{00A3}", "\U{00A3} British Pound")
  ]

  /** The code the provider starts with, before any saved choice is loaded. */
  const InitialCode: string := "NGN"

  /** `table.find((c) => c.code === code)` from position `from` on: the index
      of the first entry with that code, or `None` (`undefined`). */
  function FindFrom(table: seq<Currency>, code: string, from: nat): (r: Option<nat>)
    requires from <= |table|
    ensures r.Some? ==> from <= r.value < |table| && table[r.value].code == code
    ensures r.Some? ==> forall j :: from <= j < r.value ==> table[j].code != code
    ensures r.None? ==> forall j :: from <= j < |table| ==> table[j].code != code
    decreases |table| - from
  {
    if from == |table| then None
    else if table[from].code == code then Some(from)
    else FindFrom(table, code, from + 1)
  }

  /** `CURRENCIES.find((c) => c.code === code) || CURRENCIES[0]`: the entry
      with the selected code, falling back to the first entry for a code the
      table does not know.  A found entry is an object, hence truthy. */
  function Resolve(code: string): (c: Currency)
    ensures c in Currencies
    ensures (exists i :: 0 <= i < |Currencies| && Currencies[i].code == code) ==> c.code == code
    ensures (forall i :: 0 <= i < |Currencies| ==> Currencies[i].code != code) ==> c == Currencies[0]
  {
    match FindFrom(Currencies, code, 0)
    case Some(i) => Currencies[i]
    case None => Currencies[0]
  }

  /** No two table entries share a code, so the entry resolved for a known
      code is the only one with that code. */
  lemma CodesUnique()
    ensures forall i, j :: 0 <= i < j < |Currencies| ==> Currencies[i].code != Currencies[j].code
  {
  }

  lemma ResolveKnown(i: nat)
    requires i < |Currencies|
    ensures Resolve(Currencies[i].code) == Currencies[i]
  {
    CodesUnique();
  }

  /** An unknown code falls back to the Naira. */
  lemma ResolveUnknown(code: string)
    requires code !in {"NGN", "USD", "EUR", "GBP"}
    ensures Resolve(code) == Currencies[0]
    ensures Resolve(code).code == "NGN"
  {
  }

  /** Before a saved choice is loaded, the Naira sign is shown. */
  lemma InitialSymbol()
    ensures Resolve(InitialCode).symbol == "\U{20A6}"
  {
    ResolveKnown(0);
  }
}

=== FILE: decimal.dfy ===
/** Decimal digit strings: rendering non-negative and signed integers exactly,
    digit for digit, and reading them back.  This is what
    `Number.prototype.toString` prints for integers of magnitude up to 2^53;
    above that a JavaScript number is a double, which `toString` writes with
    the shortest digits that identify it, padded with zeros where needed. */
module Decimal {
  import opened Wrappers

  predicate IsDigit(c: char) {
    '0' <= c <= '9'
  }

  predicate AllDigits(s: string) {
    forall i :: 0 <= i < |s| ==> IsDigit(s[i])
  }

  function DigitChar(d: nat): (c: char)
    requires d < 10
    ensures IsDigit(c)
  {
    (d + '0' as int) as char
  }

  function DigitValue(c: char): (d: nat)
    requires IsDigit(c)
    ensures d < 10
    ensures DigitChar(d) == c
  {
    c as int - '0' as int
  }

  function Pow10(k: nat): (p: nat)
    ensures p >= 1
  {
    if k == 0 then 1 else 10 * Pow10(k - 1)
  }

  /** The shortest decimal numeral of `n`: digits only, and no leading zero
      unless `n` is zero itself. */
  function Digits(n: nat): (s: string)
    ensures 1 <= |s| && AllDigits(s)
    ensures s[0] == '0' ==> n == 0
    decreases n
  {
    if n < 10 then [DigitChar(n)] else Digits(n / 10) + [DigitChar(n % 10)]
  }

  /** The value of a string of decimal digits; the empty string reads as 0. */
  function Parse(s: string): nat
    requires AllDigits(s)
  {
    if |s| == 0 then 0 else 10 * Parse(s[..|s| - 1]) + DigitValue(s[|s| - 1])
  }

  /** A leading zero does not change the value. */
  lemma {:induction false} ParseLeadingZero(s: string)
    requires AllDigits(s)
    ensures AllDigits("0" + s) && Parse("0" + s) == Parse(s)
    decreases |s|
  {
    var z := "0" + s;
    if |s| > 0 {
      assert z[..|z| - 1] == "0" + s[..|s| - 1];
      assert z[|z| - 1] == s[|s| - 1];
      ParseLeadingZero(s[..|s| - 1]);
    } else {
      assert Parse(z) == 10 * Parse(z[..0]) + DigitValue('0');
    }
  }

  /** Reading back what `Digits` wrote gives the number again. */
  lemma {:induction false} ParseDigits(n: nat)
    ensures Parse(Digits(n)) == n
  {
    if n >= 10 {
      var s := Digits(n);
      assert s[..|s| - 1] == Digits(n / 10);
      ParseDigits(n / 10);
    }
  }

  lemma DigitsInjective(m: nat, n: nat)
    requires Digits(m) == Digits(n)
    ensures m == n
  {
    ParseDigits(m);
    ParseDigits(n);
  }

  /** `n` has at most `k` digits exactly when it is below `10^k`. */
  lemma {:induction false} DigitsLength(n: nat, k: nat)
    requires k >= 1
    ensures |Digits(n)| <= k <==> n < Pow10(k)
  {
    if k > 1 {
      assert Pow10(k) == 10 * Pow10(k - 1);
      assert Pow10(k - 1) >= 10 by { DigitsLengthBase(k - 1); }
    } else {
      assert Pow10(1) == 10;
    }
    if n >= 10 {
      assert |Digits(n)| == |Digits(n / 10)| + 1;
      if k > 1 {
        DigitsLength(n / 10, k - 1);
        assert n / 10 < Pow10(k - 1) <==> n < 10 * Pow10(k - 1);
      }
    }
  }

  /** The numbers from 1000 to 9999 are the four-digit numerals. */
  lemma FourDigits(n: nat)
    requires 1000 <= n <= 9999
    ensures |Digits(n)| == 4
  {
    DigitsLength(n, 4);
    DigitsLength(n, 3);
    assert Pow10(3) == 1000 && Pow10(4) == 10000;
  }

  lemma DigitsLengthBase(k: nat)
    requires k >= 1
    ensures Pow10(k) >= 10
  {
  }

  /** The JavaScript rendering of a (signed) integer: a `-` in front of the
      digits of its magnitude when it is negative. */
  function IntText(i: int): string
  {
    if i < 0 then "-" + Digits(-i) else Digits(i)
  }

  /** Reads an optional `-` followed by one or more digits. */
  function ParseIntText(s: string): (r: Option<int>)
    ensures r.Some? && r.value < 0 ==> |s| > 1 && s[0] == '-'
  {
    if |s| > 1 && s[0] == '-' && AllDigits(s[1..]) then Some(0 - Parse(s[1..]) as int)
    else if |s| > 0 && AllDigits(s) then Some(Parse(s))
    else None
  }

  lemma IntTextRoundTrip(i: int)
    ensures ParseIntText(IntText(i)) == Some(i)
  {
    var s := IntText(i);
    if i < 0 {
      assert s[1..] == Digits(-i);
      ParseDigits(-i);
    } else {
      ParseDigits(i);
    }
  }

}

=== FILE: js_value.dfy ===
/** The JavaScript values that the modelled records hold, with the two
    coercions the source relies on: truthiness (`||`, `if (!x)`) and
    `Number(x)`. */
module JsValue {
  import opened Wrappers
  import opened Decimal
  import opened Strings

  /** A scalar JavaScript value.  Numbers are integers; `NaN` is kept apart
      because `Number(...)` produces it for non-numeric input. */
  datatype Value = Undefined | Null | Bool(b: bool) | Num(n: int) | NaN | Str(s: string)

  /** A plain object / database document: field name to value. */
  type Object = map<string, Value>

  /** JavaScript truthiness: `undefined`, `null`, `false`, `0`, `NaN` and the
      empty string are falsy; everything else is truthy. */
  predicate Truthy(v: Value) {
    match v
    case Undefined => false
    case Null => false
    case Bool(b) => b
    case Num(n) => n != 0
    case NaN => false
    case Str(s) => s != ""
  }

  /** `auth.currentUser?.uid` passes the `if (!uid)` guard: somebody is
      signed in and the uid is a non-empty string. */
  predicate SignedIn(uid: Option<string>) {
    uid.Some? && Truthy(Str(uid.value))
  }

  /** `Number(s)` on a string: surrounding white space is ignored, the empty
      string is 0, an optional sign followed by decimal digits is that
      integer, and anything else is `NaN` (here `None`). */
  function StringToNumber(s: string): (r: Option<int>)
    ensures Trim(s) == "" ==> r == Some(0)
    ensures r.Some? && Trim(s) != "" ==> exists k :: 0 <= k < |Trim(s)| && IsDigit(Trim(s)[k])
  {
    var t := Trim(s);
    if t == "" then Some(0)
    else if |t| > 1 && (t[0] == '-' || t[0] == '+') && AllDigits(t[1..]) then
      assert IsDigit(t[1..][0]);
      var m := Parse(t[1..]);
      Some(if t[0] == '-' then 0 - m else m)
    else if AllDigits(t) then
      assert IsDigit(t[0]);
      Some(Parse(t))
    else None
  }

  /** `Number(v)`; `None` stands for `NaN`. */
  function ToNumber(v: Value): (r: Option<int>)
    ensures v.Num? ==> r == Some(v.n)
    ensures v == Undefined || v == NaN ==> r == None
    ensures v == Null ==> r == Some(0)
  {
    match v
    case Undefined => None
    case Null => Some(0)
    case Bool(b) => Some(if b then 1 else 0)
    case Num(n) => Some(n)
    case NaN => None
    case Str(s) => StringToNumber(s)
  }

  /** The value a numeric result is stored as. */
  function FromNumber(r: Option<int>): (v: Value)
    ensures ToNumber(v) == r
  {
    match r
    case None => NaN
    case Some(n) => Num(n)
  }

  /** `Number(String(i)) == i`: converting an integer to text and back is
      lossless. */
  lemma NumberOfIntText(i: int)
    ensures ToNumber(Str(IntText(i))) == Some(i)
  {
    var s := IntText(i);
    assert Trimmed(s) by {
      assert !IsSpace(s[0]);
    }
    TrimOfTrimmed(s);
    IntTextRoundTrip(i);
    if i < 0 {
      assert s[1..] == Digits(-i);
    }
  }
}

=== FILE: month_key.dfy ===
/** `getMonthKey`: the `YYYY-MM` key under which a month's budget is stored. */
module MonthKeys {
  import opened Wrappers
  import opened Decimal
  import opened Strings

  /** `Date.prototype.getMonth()`: 0 for January up to 11 for December. */
  type MonthIndex = m: int | 0 <= m < 12

  /** The two-character month part: the 1-based month, zero-padded. */
  function MonthText(month: MonthIndex): string
  {
    PadStart(IntText(month + 1), 2, '0')
  }

  /** The month part is two digits that read back as the 1-based month. */
  lemma MonthTextShape(month: MonthIndex)
    ensures |MonthText(month)| == 2 && AllDigits(MonthText(month))
    ensures Parse(MonthText(month)) == month + 1
  {
    var d := IntText(month + 1);
    DigitsLength(month + 1, 2);
    assert Pow10(2) == 100;
    var t := PadStart(d, 2, '0');
    ParseDigits(month + 1);
    if |d| == 1 {
      assert t == "0" + d;
      assert t[..1] == "0";
    } else {
      assert t == d;
    }
  }

  /** Padding a numeral with zeros in front keeps its value. */
  lemma {:induction false} ZeroPadKeepsValue(d: string, width: nat)
    requires AllDigits(d)
    ensures AllDigits(PadStart(d, width, '0'))
    ensures Parse(PadStart(d, width, '0')) == Parse(d)
    decreases width
  {
    if |d| < width {
      var r := PadStart(d, width, '0');
      var rest := PadStart(d, width - 1, '0');
      assert r == "0" + rest;
      ZeroPadKeepsValue(d, width - 1);
      ParseLeadingZero(rest);
    }
  }

  /** `getMonthKey(date)`: the year as JavaScript prints it, a dash, and the
      two-digit month. */
  function MonthKey(year: int, month: MonthIndex): string
  {
    IntText(year) + "-" + MonthText(month)
  }

  /** The key is the year's text, a dash, and the two-digit month. */
  lemma MonthKeyShape(year: int, month: MonthIndex)
    ensures var key := MonthKey(year, month);
      && |key| == |IntText(year)| + 3
      && key[..|key| - 3] == IntText(year)
      && key[|key| - 3] == '-'
      && key[|key| - 2..] == MonthText(month)
  {
    MonthTextShape(month);
    ConcatParts(IntText(year), MonthText(month));
  }

  /** Splitting `y + "-" + t` for a two-character `t`. */
  lemma ConcatParts(y: string, t: string)
    requires |t| == 2
    ensures var key := y + "-" + t;
      && |key| == |y| + 3
      && key[..|key| - 3] == y
      && key[|key| - 3] == '-'
      && key[|key| - 2..] == t
  {
    var key := y + "-" + t;
    assert key[..|key| - 3] == y;
    assert key[|key| - 2..] == t;
  }

  /** Reads a month key back into its year and 0-based month. */
  function ParseMonthKey(key: string): (r: Option<(int, MonthIndex)>)
    ensures r.Some? ==> 4 <= |key| && key[|key| - 3] == '-'
  {
    if |key| >= 4 && key[|key| - 3] == '-' && AllDigits(key[|key| - 2..]) then
      var m := Parse(key[|key| - 2..]);
      match ParseIntText(key[..|key| - 3])
      case Some(y) => if 1 <= m <= 12 then Some((y, m - 1)) else None
      case None => None
    else None
  }

  lemma MonthKeyRoundTrip(year: int, month: MonthIndex)
    ensures ParseMonthKey(MonthKey(year, month)) == Some((year, month))
  {
    IntTextRoundTrip(year);
    MonthKeyShape(year, month);
    MonthTextShape(month);
  }

  /** Different months never share a key. */
  lemma MonthKeyInjective(y1: int, m1: MonthIndex, y2: int, m2: MonthIndex)
    requires MonthKey(y1, m1) == MonthKey(y2, m2)
    ensures y1 == y2 && m1 == m2
  {
    MonthKeyRoundTrip(y1, m1);
    MonthKeyRoundTrip(y2, m2);
  }

  /** With a four-digit year the key has the form `YYYY-MM`. */
  lemma MonthKeyFourDigitYear(year: int, month: MonthIndex)
    requires 1000 <= year <= 9999
    ensures |MonthKey(year, month)| == 7
    ensures MonthKey(year, month)[..4] == Digits(year)
  {
    FourDigits(year);
    MonthKeyShape(year, month);
    assert IntText(year) == Digits(year);
  }
}

=== FILE: number_format.dfy ===
/** `formatNumber`: the magnitude of a number, rounded, written in decimal
    with a comma between every group of three digits counted from the right. */
module NumberFormat {
  import opened Wrappers
  import opened Decimal
  import opened JsValue

  /** Where `/\B(?=(\d{3})+(?!\d))/g` matches inside a numeral of `len`
      digits: strictly inside it (`\B` between two digits) and with a
      positive multiple of three digits to its right. */
  predicate CommaBefore(len: nat, p: nat) {
    0 < p < len && (len - p) % 3 == 0
  }

  /** The regular-expression replacement read from position `p` on: a comma
      goes in front of every matching position, every digit is kept. */
  function InsertFrom(s: string, p: nat): string
    requires p <= |s|
    decreases |s| - p
  {
    if p == |s| then ""
    else (if CommaBefore(|s|, p) then "," else "") + [s[p]] + InsertFrom(s, p + 1)
  }

  /** Grouping from the right: the last three digits form a group, the rest is
      grouped the same way. */
  function Group(s: string): string
  {
    if |s| <= 3 then s else Group(s[..|s| - 3]) + "," + s[|s| - 3..]
  }

  /** The shape of a grouped numeral: reading from the right, every fourth
      character is a comma and every other one a digit, and the length is not
      a multiple of four, so the first character is a digit.  Hence it never
      starts or ends with a comma, the first group has one to three digits
      (`|r| % 4` of them), and every comma is followed by exactly three digits. */
  predicate Grouped(r: string) {
    && |r| % 4 != 0
    && forall j :: 0 <= j < |r| ==> if (|r| - j) % 4 == 0 then r[j] == ',' else IsDigit(r[j])
  }

  /** The text with its commas removed. */
  function StripCommas(r: string): (t: string)
    ensures |t| <= |r|
  {
    if |r| == 0 then ""
    else (if r[0] == ',' then "" else [r[0]]) + StripCommas(r[1..])
  }

  lemma {:induction false} StripCommasAppend(a: string, b: string)
    ensures StripCommas(a + b) == StripCommas(a) + StripCommas(b)
  {
    if |a| > 0 {
      assert (a + b)[1..] == a[1..] + b;
      StripCommasAppend(a[1..], b);
    } else {
      assert a + b == b;
    }
  }

  lemma {:induction false} StripCommasOfDigits(s: string)
    requires AllDigits(s)
    ensures StripCommas(s) == s
  {
    if |s| > 0 {
      StripCommasOfDigits(s[1..]);
    }
  }

  /** The replacement leaves the characters from `p` on untouched when no
      match lies at or after `p`. */
  lemma {:induction false} InsertFromNoMatch(s: string, p: nat)
    requires p <= |s|
    requires forall q :: p <= q < |s| ==> !CommaBefore(|s|, q)
    ensures InsertFrom(s, p) == s[p..]
    decreases |s| - p
  {
    if p < |s| {
      InsertFromNoMatch(s, p + 1);
    }
  }

  /** Appending three digits to a numeral of at least one digit adds one
      match, right in front of them, and shifts none of the others. */
  lemma {:induction false} InsertFromAppend(t: string, u: string, p: nat)
    requires |u| == 3 && 1 <= |t| && p <= |t|
    ensures InsertFrom(t + u, p) == InsertFrom(t, p) + "," + u
    decreases |t| - p
  {
    var s := t + u;
    if p == |t| {
      assert CommaBefore(|s|, p);
      InsertFromNoMatch(s, p + 1);
      assert s[p..] == u;
    } else {
      assert CommaBefore(|s|, p) == CommaBefore(|t|, p);
      assert s[p] == t[p];
      InsertFromAppend(t, u, p + 1);
    }
  }

  /** The regular expression groups digits exactly as `Group` does. */
  lemma {:induction false} RegexIsGrouping(s: string)
    ensures InsertFrom(s, 0) == Group(s)
    decreases |s|
  {
    if |s| <= 3 {
      InsertFromNoMatch(s, 0);
    } else {
      var t, u := s[..|s| - 3], s[|s| - 3..];
      assert s == t + u;
      InsertFromAppend(t, u, 0);
      RegexIsGrouping(t);
    }
  }

  lemma {:induction false} GroupLength(s: string)
    requires |s| >= 1
    ensures |Group(s)| == |s| + (|s| - 1) / 3
    decreases |s|
  {
    if |s| > 3 {
      GroupLength(s[..|s| - 3]);
    }
  }

  /** A comma and three more digits keep a grouped numeral grouped. */
  lemma GroupedAppend(g: string, u: string)
    requires Grouped(g) && |u| == 3 && AllDigits(u)
    ensures Grouped(g + "," + u)
  {
    var r := g + "," + u;
    forall j | 0 <= j < |r|
      ensures if (|r| - j) % 4 == 0 then r[j] == ',' else IsDigit(r[j])
    {
      if j < |g| {
        assert r[j] == g[j];
        assert (|r| - j) % 4 == (|g| - j) % 4;
      } else if j > |g| {
        assert r[j] == u[j - |g| - 1];
      }
    }
  }

  lemma {:induction false} GroupIsGrouped(s: string)
    requires |s| >= 1 && AllDigits(s)
    ensures Grouped(Group(s))
    decreases |s|
  {
    if |s| <= 3 {
      assert Group(s) == s;
      forall j | 0 <= j < |s|
        ensures if (|s| - j) % 4 == 0 then s[j] == ',' else IsDigit(s[j])
      {
      }
    } else {
      var t, u := s[..|s| - 3], s[|s| - 3..];
      assert Group(s) == Group(t) + "," + u;
      GroupIsGrouped(t);
      GroupedAppend(Group(t), u);
    }
  }

  lemma {:induction false} StripCommasOfGroup(s: string)
    requires AllDigits(s)
    ensures StripCommas(Group(s)) == s
    decreases |s|
  {
    if |s| <= 3 {
      StripCommasOfDigits(s);
    } else {
      var t, u := s[..|s| - 3], s[|s| - 3..];
      var g := Group(t);
      assert AllDigits(t) && AllDigits(u);
      calc {
        StripCommas(Group(s));
        StripCommas(g + "," + u);
        { StripCommasAppend(g + ",", u); }
        StripCommas(g + ",") + StripCommas(u);
        { StripCommasAppend(g, ","); StripCommasOfDigits(u); }
        StripCommas(g) + StripCommas(",") + u;
        { StripCommasOfGroup(t); assert StripCommas(",") == ""; }
        t + u;
        s;
      }
    }
  }

  /** The number `formatNumber` prints: the default parameter turns a missing
      argument into 0, `Number(n) || 0` turns `NaN` (and 0) into 0, and
      `Math.abs(Math.round(...))` keeps the magnitude of the integer. */
  function Magnitude(v: Value): (m: nat)
    ensures v == Undefined || v == NaN || v == Null ==> m == 0
    ensures v.Num? ==> m == if v.n < 0 then -v.n else v.n
  {
    var n := if v == Undefined then Num(0) else v;
    var i := match ToNumber(n) case None => 0 case Some(x) => x;
    if i < 0 then -i else i
  }

  /** `formatNumber(n)`. */
  function FormatNumber(v: Value): (r: string)
    ensures Grouped(r)
    ensures StripCommas(r) == Digits(Magnitude(v))
  {
    var digits := Digits(Magnitude(v));
    RegexIsGrouping(digits);
    GroupIsGrouped(digits);
    StripCommasOfGroup(digits);
    InsertFrom(digits, 0)
  }

  /** Removing the commas and reading the digits gives back the magnitude
      of the integer. */
  lemma FormatNumberRoundTrip(n: int)
    ensures AllDigits(StripCommas(FormatNumber(Num(n))))
    ensures Parse(StripCommas(FormatNumber(Num(n)))) == if n < 0 then -n else n
  {
    ParseDigits(Magnitude(Num(n)));
  }

  /** The sign is discarded. */
  lemma FormatNumberIgnoresSign(n: int)
    ensures FormatNumber(Num(-n)) == FormatNumber(Num(n))
  {
  }

  /** The output holds the magnitude's digits and one comma for every full
      group of three digits in front of the last digit. */
  lemma FormatNumberLength(n: int)
    ensures var d := Digits(if n < 0 then -n else n);
            |FormatNumber(Num(n))| == |d| + (|d| - 1) / 3
  {
    var d := Digits(Magnitude(Num(n)));
    RegexIsGrouping(d);
    GroupLength(d);
  }

  /** A comma appears exactly when the magnitude is at least 1000. */
  lemma FormatNumberHasComma(n: int)
    ensures (',' in FormatNumber(Num(n))) <==> (n <= -1000 || 1000 <= n)
  {
    var m := Magnitude(Num(n));
    var d := Digits(m);
    DigitsLength(m, 3);
    assert Pow10(3) == 1000;
    RegexIsGrouping(d);
    if |d| <= 3 {
      assert FormatNumber(Num(n)) == d;
      assert ',' !in d;
    } else {
      var g := Group(d);
      assert g == Group(d[..|d| - 3]) + "," + d[|d| - 3..];
      assert g[|g| - 4] == ',';
    }
  }

  /** Missing or non-numeric input prints as "0". */
  lemma FormatNumberOfNonNumeric(v: Value)
    requires v == Undefined || v == NaN || v == Null || (v.Str? && StringToNumber(v.s).None?)
    ensures FormatNumber(v) == "0"
  {
    assert Digits(0) == "0";
  }
}

=== FILE: scenarios.dfy ===
/** Concrete instances of the model's operations on the values the
    application uses: the current month's key, amounts as shown on the
    dashboard, and category names typed into the settings screen. */
module Scenarios {
  import opened Decimal
  import opened Strings
  import opened JsValue
  import opened NumberFormat
  import opened MonthKeys
  import opened Categories

  lemma JanuaryText()
    ensures MonthText(0) == "01"
  {
    assert Digits(1) == "1";
  }

  lemma DecemberText()
    ensures MonthText(11) == "12"
  {
    assert Digits(12) == "12";
  }

  lemma YearText2025()
    ensures IntText(2025) == "2025"
  {
    assert Digits(2025) == "2025";
  }

  lemma KeyFromParts(year: int, month: MonthIndex, yearText: string, monthText: string)
    requires IntText(year) == yearText && MonthText(month) == monthText
    ensures MonthKey(year, month) == yearText + "-" + monthText
  {
  }

  /** `getMonthKey(new Date(2025, 0, 15))` is "2025-01". */
  lemma JanuaryKeyExample()
    ensures MonthKey(2025, 0) == "2025-01"
  {
    YearText2025();
    JanuaryText();
    KeyFromParts(2025, 0, "2025", "01");
  }

  /** December is month index 11 and month "12". */
  lemma DecemberKeyExample()
    ensures MonthKey(2025, 11) == "2025-12"
  {
    YearText2025();
    DecemberText();
    KeyFromParts(2025, 11, "2025", "12");
  }

  /** Three digits need no separator. */
  lemma FormatNumberSmallExample()
    ensures FormatNumber(Num(999)) == "999"
  {
    assert Digits(999) == "999";
    RegexIsGrouping("999");
  }

  lemma FormatNumberThousandExample()
    ensures FormatNumber(Num(1000)) == "1,000"
  {
    assert Digits(1000) == "1000";
    RegexIsGrouping("1000");
    assert Group("1000") == "1,000";
  }

  lemma DigitsMillionsExample()
    ensures Digits(1234567) == "1234567"
  {
    assert Digits(12) == "12";
    assert Digits(123) == "123";
    assert Digits(1234) == "1234";
    assert Digits(12345) == "12345";
    assert Digits(123456) == "123456";
  }

  lemma GroupMillionsExample()
    ensures Group("1234567") == "1,234,567"
  {
    var s := "1234567";
    assert s[..4] == "1234" && s[4..] == "567";
    assert Group("1234") == "1,234" by {
      assert "1234"[..1] == "1" && "1234"[1..] == "234";
    }
  }

  /** Both signs print the same grouped magnitude. */
  lemma FormatNumberMillionsExample()
    ensures FormatNumber(Num(1234567)) == "1,234,567"
    ensures FormatNumber(Num(-1234567)) == "1,234,567"
  {
    DigitsMillionsExample();
    GroupMillionsExample();
    RegexIsGrouping("1234567");
  }

  lemma TrimPaddedFood()
    ensures Trim(" food ") == "food"
  {
    assert " food " == " " + "food" + " ";
    TrimPadded("food");
  }

  lemma FoodIsDefault()
    ensures AnyLabelMatches(DefaultExpense, "food")
  {
    assert LowerStr("Food") == "food" by {
      assert LowerStr("d") == "d";
      assert LowerStr("od") == "od";
      assert LowerStr("ood") == "ood";
    }
    assert LowerStr("food") == "food";
    assert SameLabel(DefaultExpense[0].name, "food");
  }

  /** Re-adding a default under other casing and padding changes nothing. */
  lemma AddExistingLabelExample()
    ensures AddCategory(Defaults, "expense", " food ") == Defaults
  {
    TrimPaddedFood();
    FoodIsDefault();
  }

  lemma OtherExpenseWords()
    ensures NoSpace("Other") && NoSpace("expense")
    ensures LowerStr("Other") == "other" && LowerStr("expense") == "expense"
  {
  }

  lemma OtherExpenseJoined()
    ensures "Other" + " " + "expense" == "Other expense"
    ensures "other" + "-" + "expense" == "other-expense"
  {
  }

  lemma SlugOfJoinedWords(a: string, b: string, la: string, lb: string)
    requires NoSpace(a) && NoSpace(b) && |b| > 0
    requires LowerStr(a) == la && LowerStr(b) == lb
    ensures Slug(a + " " + b) == la + "-" + lb
  {
    SlugOfTwoWords(a, b);
  }

  lemma SlugOfOtherExpense()
    ensures Slug("Other expense") == "other-expense"
  {
    OtherExpenseWords();
    OtherExpenseJoined();
    SlugOfJoinedWords("Other", "expense", "other", "expense");
  }

  lemma OtherExpenseIsNew()
    ensures !AnyLabelMatches(DefaultExpense, "Other expense")
  {
    var l := LowerStr("Other expense");
    assert l[0] == 'o';
    forall i | 0 <= i < |DefaultExpense|
      ensures !SameLabel(DefaultExpense[i].name, "Other expense")
    {
      var m := LowerStr(DefaultExpense[i].name);
      if i == 4 {
        assert m[0] == 'e';
      } else {
        assert |m| != |l|;
      }
    }
  }

  /** De-duplication looks at labels only: "Other expense" is a new label, so
      it is appended although its slug is the id of the default "Other". */
  lemma SlugCollisionExample()
    ensures AddCategory(Defaults, "expense", "Other expense").expense
            == DefaultExpense + [Category("other-expense", "Other expense")]
    ensures DefaultExpense[5].id == "other-expense"
  {
    var text := "Other expense";
    assert Trimmed(text) by {
      assert text[0] == 'O' && text[|text| - 1] == 'e';
    }
    TrimOfTrimmed(text);
    SlugOfOtherExpense();
    OtherExpenseIsNew();
    assert AddCategory(Defaults, "expense", text).expense
           == AppendCategory(DefaultExpense, Slug(text), text);
  }
}

=== FILE: strings.dfy ===
/** Character classes and string transformations that JavaScript's
    `String.prototype.trim`, `toLowerCase` and the regular expression `\s+`
    perform on category names. */
module Strings {

  /** The code points JavaScript counts as white space, both for `trim()` and
      for the `\s` class: TAB, LF, VT, FF, CR, the space separators of Unicode
      category Zs, LINE/PARAGRAPH SEPARATOR and the byte-order mark. */
  predicate IsSpace(c: char) {
    var x := c as int;
    || (0x09 <= x <= 0x0D)
    || x == 0x20
    || x == 0xA0
    || x == 0x1680
    || (0x2000 <= x <= 0x200A)
    || x == 0x2028
    || x == 0x2029
    || x == 0x202F
    || x == 0x205F
    || x == 0x3000
    || x == 0xFEFF
  }

  predicate NoSpace(s: string) {
    forall i :: 0 <= i < |s| ==> !IsSpace(s[i])
  }

  /** No white space at either end. */
  predicate Trimmed(s: string) {
    |s| == 0 || (!IsSpace(s[0]) && !IsSpace(s[|s| - 1]))
  }

  /** Lower-casing of one character; only the ASCII letters are mapped. */
  function Lower(c: char): (d: char)
    ensures !('A' <= d <= 'Z')
    ensures 'A' <= c <= 'Z' ==> 'a' <= d <= 'z' && d as int == c as int + 32
    ensures !('A' <= c <= 'Z') ==> d == c
  {
    if 'A' <= c <= 'Z' then (c as int + 32) as char else c
  }

  /** `toLowerCase()`: every character lower-cased, nothing added or removed. */
  function LowerStr(s: string): (r: string)
    ensures |r| == |s|
    ensures forall i :: 0 <= i < |s| ==> r[i] == Lower(s[i])
  {
    seq(|s|, i requires 0 <= i < |s| => Lower(s[i]))
  }

  lemma LowerKeepsNonSpace(s: string)
    requires NoSpace(s)
    ensures NoSpace(LowerStr(s))
  {
    forall i | 0 <= i < |s|
      ensures !IsSpace(LowerStr(s)[i])
    {
      var c := s[i];
      if 'A' <= c <= 'Z' {
        assert 'a' <= Lower(c) <= 'z';
      }
    }
  }

  lemma LowerStrAppend(a: string, b: string)
    ensures LowerStr(a + b) == LowerStr(a) + LowerStr(b)
  {
  }

  predicate IsLower(s: string) {
    forall i :: 0 <= i < |s| ==> Lower(s[i]) == s[i]
  }

  lemma LowerStrIdempotent(s: string)
    ensures IsLower(LowerStr(s))
    ensures LowerStr(LowerStr(s)) == LowerStr(s)
  {
  }

  /** The end of the white-space run that starts at `i`. */
  function SpaceRunEnd(s: string, i: nat): (n: nat)
    requires i <= |s|
    ensures i <= n <= |s|
    ensures forall k :: i <= k < n ==> IsSpace(s[k])
    ensures n == |s| || !IsSpace(s[n])
    decreases |s| - i
  {
    if i < |s| && IsSpace(s[i]) then SpaceRunEnd(s, i + 1) else i
  }

  /** The start of the white-space run that ends at `j`. */
  function SpaceRunStart(s: string, j: nat): (n: nat)
    requires j <= |s|
    ensures n <= j
    ensures forall k :: n <= k < j ==> IsSpace(s[k])
    ensures n == 0 || !IsSpace(s[n - 1])
  {
    if j > 0 && IsSpace(s[j - 1]) then SpaceRunStart(s, j - 1) else j
  }

  /** Drops the leading white space: the result is the longest suffix that
      does not start with white space. */
  function TrimStart(s: string): (r: string)
    ensures |r| <= |s| && r == s[|s| - |r|..]
    ensures forall k :: 0 <= k < |s| - |r| ==> IsSpace(s[k])
    ensures |r| == 0 || !IsSpace(r[0])
  {
    s[SpaceRunEnd(s, 0)..]
  }

  /** Drops the trailing white space: the result is the longest prefix that
      does not end with white space. */
  function TrimEnd(s: string): (r: string)
    ensures |r| <= |s| && r == s[..|r|]
    ensures forall k :: |r| <= k < |s| ==> IsSpace(s[k])
    ensures |r| == 0 || !IsSpace(r[|r| - 1])
  {
    s[..SpaceRunStart(s, |s|)]
  }

  /** `trim()`: white space removed from both ends; nothing is left exactly
      when the input is white space only. */
  function Trim(s: string): (r: string)
    ensures Trimmed(r)
    ensures |r| == 0 <==> forall k :: 0 <= k < |s| ==> IsSpace(s[k])
  {
    var t := TrimStart(s);
    var r := TrimEnd(t);
    assert |r| == 0 ==> |t| == 0;
    r
  }

  /** What `trim()` keeps is one contiguous piece of the input, with only
      white space cut off before and after it. */
  lemma TrimInfix(s: string)
    ensures var r, i := Trim(s), |s| - |TrimStart(s)|;
      && i + |r| <= |s|
      && r == s[i..i + |r|]
      && (forall k :: 0 <= k < i ==> IsSpace(s[k]))
      && (forall k :: i + |r| <= k < |s| ==> IsSpace(s[k]))
  {
    var t := TrimStart(s);
    var i := |s| - |t|;
    var r := TrimEnd(t);
    assert Trim(s) == r;
    assert t == s[i..];
    assert r == t[..|r|];
    SliceOfSuffix(s, i, |r|);
    forall k | i + |r| <= k < |s|
      ensures IsSpace(s[k])
    {
      assert s[k] == t[k - i];
    }
  }

  lemma SliceOfSuffix(s: string, i: nat, n: nat)
    requires i + n <= |s|
    ensures s[i..][..n] == s[i..i + n]
  {
  }

  lemma TrimOfTrimmed(s: string)
    requires Trimmed(s)
    ensures Trim(s) == s
  {
    if |s| > 0 {
      NoLeadingSpace(s);
      NoTrailingSpace(s);
    }
  }

  lemma NoLeadingSpace(s: string)
    requires |s| > 0 && !IsSpace(s[0])
    ensures TrimStart(s) == s
  {
    assert SpaceRunEnd(s, 0) == 0;
  }

  lemma NoTrailingSpace(s: string)
    requires |s| > 0 && !IsSpace(s[|s| - 1])
    ensures TrimEnd(s) == s
  {
    assert SpaceRunStart(s, |s|) == |s|;
  }

  lemma TrimIdempotent(s: string)
    ensures Trim(Trim(s)) == Trim(s)
  {
    TrimOfTrimmed(Trim(s));
  }

  /** The global replacement `replace(/\s+/g, "-")`: every maximal run of
      white space becomes one `-`.  A run is consumed greedily, which is what
      `TrimStart` of the rest does. */
  function DashSpaceRuns(s: string): (r: string)
    ensures NoSpace(r)
    ensures |r| <= |s|
  {
    if |s| == 0 then ""
    else if IsSpace(s[0]) then
      var rest := DashSpaceRuns(TrimStart(s[1..]));
      assert !IsSpace('-');
      ['-'] + rest
    else
      var rest := DashSpaceRuns(s[1..]);
      [s[0]] + rest
  }

  /** The same replacement read one character at a time: a non-space is
      copied, a space emits `-` only when it begins a run (the previous
      character was not a space). */
  function DashFrom(s: string, afterSpace: bool): string {
    if |s| == 0 then ""
    else if IsSpace(s[0]) then (if afterSpace then "" else "-") + DashFrom(s[1..], true)
    else [s[0]] + DashFrom(s[1..], false)
  }

  lemma {:induction false} DashFromSkipsRun(s: string)
    ensures DashFrom(s, true) == DashFrom(TrimStart(s), true)
  {
    if |s| > 0 && IsSpace(s[0]) {
      DashFromSkipsRun(s[1..]);
    }
  }

  /** Both readings of the regular-expression replacement agree. */
  lemma {:induction false} DashSpaceRunsCharwise(s: string)
    ensures DashSpaceRuns(s) == DashFrom(s, false)
  {
    if |s| > 0 {
      if IsSpace(s[0]) {
        var t := TrimStart(s[1..]);
        DashFromSkipsRun(s[1..]);
        DashSpaceRunsCharwise(t);
        assert DashFrom(t, true) == DashFrom(t, false);
      } else {
        DashSpaceRunsCharwise(s[1..]);
      }
    }
  }

  lemma {:induction false} DashSpaceRunsOfNoSpace(s: string)
    requires NoSpace(s)
    ensures DashSpaceRuns(s) == s
  {
    if |s| > 0 {
      DashSpaceRunsOfNoSpace(s[1..]);
    }
  }

  /** Every character of the replacement is either `-` or copied from the input. */
  lemma {:induction false} DashSpaceRunsKeepsLower(s: string)
    requires IsLower(s)
    ensures IsLower(DashSpaceRuns(s))
  {
    if |s| > 0 {
      if IsSpace(s[0]) {
        DashSpaceRunsKeepsLower(TrimStart(s[1..]));
      } else {
        DashSpaceRunsKeepsLower(s[1..]);
      }
    }
  }

  /** A word in front passes through the replacement unchanged. */
  lemma {:induction false} DashSpaceRunsAfterWord(a: string, t: string)
    requires NoSpace(a)
    ensures DashSpaceRuns(a + t) == a + DashSpaceRuns(t)
  {
    if |a| > 0 {
      assert (a + t)[1..] == a[1..] + t;
      DashSpaceRunsAfterWord(a[1..], t);
    } else {
      assert a + t == t;
    }
  }

  /** Words separated by one space are joined by one dash. */
  lemma DashSpaceRunsJoin(a: string, b: string)
    requires NoSpace(a) && NoSpace(b) && |b| > 0
    ensures DashSpaceRuns(a + " " + b) == a + "-" + b
  {
    calc {
      DashSpaceRuns(a + " " + b);
      { AppendAssoc(a, " ", b); }
      DashSpaceRuns(a + (" " + b));
      { DashSpaceRunsAfterWord(a, " " + b); }
      a + DashSpaceRuns(" " + b);
      { DashSpaceRunsOfSpacedWord(b); }
      a + ("-" + b);
      { AppendAssoc(a, "-", b); }
      a + "-" + b;
    }
  }

  lemma AppendAssoc(a: string, m: string, b: string)
    ensures a + m + b == a + (m + b)
  {
  }

  /** One space before a word becomes one dash. */
  lemma DashSpaceRunsOfSpacedWord(b: string)
    requires NoSpace(b) && |b| > 0
    ensures DashSpaceRuns(" " + b) == "-" + b
  {
    var s := " " + b;
    assert s[1..] == b;
    NoLeadingSpace(b);
    DashSpaceRunsOfNoSpace(b);
  }

  /** Blanks around a trimmed text are what `trim()` removes. */
  lemma TrimPadded(s: string)
    requires Trimmed(s) && |s| > 0
    ensures Trim(" " + s + " ") == s
  {
    var p := " " + s + " ";
    assert p[1] == s[0] && !IsSpace(p[1]);
    assert SpaceRunEnd(p, 0) == 1;
    assert p[1..] == s + " ";
    assert TrimStart(p) == s + " ";
    assert (s + " ")[..|s|] == s;
    TrimOfTrimmed(s);
  }

  /** `padStart(width, pad)`: pad characters in front until `width` is reached. */
  function PadStart(s: string, width: nat, pad: char): string
  {
    if |s| >= width then s else seq(width - |s|, _ => pad) + s
  }

  /** The padded text has the requested width (or more), ends with the
      original text and is filled with `pad` in front of it. */
  lemma PadStartShape(s: string, width: nat, pad: char)
    ensures var r := PadStart(s, width, pad);
      && |r| == (if |s| >= width then |s| else width)
      && r[|r| - |s|..] == s
      && forall k :: 0 <= k < |r| - |s| ==> r[k] == pad
  {
    var r := PadStart(s, width, pad);
    assert r[|r| - |s|..] == s;
  }
}

=== FILE: transactions.dfy ===
/** Transaction records: stripping undefined fields before a write, the id an
    added transaction is stored under, and the document-store effect of the
    add, update and delete operations. */
module Transactions {
  import opened Wrappers
  import opened Decimal
  import opened JsValue

  /** A transaction document (`{ id, title, amount, categoryId, ... }`). */
  type Doc = Object

  /** The signed-in user's transactions collection, by document id. */
  type Store = map<string, Doc>

  datatype Error =
    | NotLoggedIn        // `requireUserId()` found nobody signed in
    | NotFound           // `updateDoc` on a document that does not exist
    | InvalidDocumentId  // a non-string id cannot name a document

  predicate NoUndefined(d: Doc) {
    forall k :: k in d ==> d[k] != Undefined
  }

  /** `cleanData(obj)`: the fields whose value is not `undefined`, each with
      its value unchanged. */
  function CleanData(obj: Doc): (out: Doc)
    ensures forall k :: k in out <==> k in obj && obj[k] != Undefined
    ensures forall k :: k in out ==> out[k] == obj[k]
  {
    map k | k in obj && obj[k] != Undefined :: obj[k]
  }

  /** A record without undefined fields passes through unchanged, so cleaning
      twice is cleaning once. */
  lemma CleanDataOfClean(obj: Doc)
    requires NoUndefined(obj)
    ensures CleanData(obj) == obj
  {
  }

  lemma CleanDataIdempotent(obj: Doc)
    ensures NoUndefined(CleanData(obj))
    ensures CleanData(CleanData(obj)) == CleanData(obj)
  {
    CleanDataOfClean(CleanData(obj));
  }

  /** `tx.id || Date.now().toString()`: the caller's id when it is truthy,
      otherwise the current time in milliseconds written in decimal. */
  function ChooseId(tx: Doc, nowMillis: nat): (id: Value)
    ensures "id" in tx && Truthy(tx["id"]) ==> id == tx["id"]
    ensures !("id" in tx && Truthy(tx["id"])) ==> id == Str(Digits(nowMillis))
    ensures Truthy(id)
  {
    if "id" in tx && Truthy(tx["id"]) then tx["id"] else Str(Digits(nowMillis))
  }

  /** `addTransaction(tx)`: `setDoc` replaces the document named by the
      chosen id with `cleanData({ ...tx, id })`. */
  function AddTransaction(store: Store, uid: Option<string>, tx: Doc, nowMillis: nat): (r: Result<Store, Error>)
    ensures !SignedIn(uid) ==> r == Err(NotLoggedIn)
    ensures SignedIn(uid) && !ChooseId(tx, nowMillis).Str? ==> r == Err(InvalidDocumentId)
    ensures r.Ok? <==> SignedIn(uid) && ChooseId(tx, nowMillis).Str?
    ensures r.Ok? ==>
      var id := ChooseId(tx, nowMillis).s;
      && r.value.Keys == store.Keys + {id}
      && (forall k :: k in store && k != id ==> r.value[k] == store[k])
      && r.value[id].Keys == CleanData(tx).Keys + {"id"}
      && r.value[id]["id"] == Str(id)
      && (forall f :: f in r.value[id] && f != "id" ==> r.value[id][f] == tx[f])
      && NoUndefined(r.value[id])
  {
    if !SignedIn(uid) then Err(NotLoggedIn)
    else
      var id := ChooseId(tx, nowMillis);
      if !id.Str? then Err(InvalidDocumentId)
      else Ok(store[id.s := CleanData(tx["id" := id])])
  }

  /** The usual call, with a caller-supplied non-empty string id, stores the
      record under that id. */
  lemma AddTransactionWithId(store: Store, uid: Option<string>, tx: Doc, id: string, nowMillis: nat)
    requires SignedIn(uid) && "id" in tx && tx["id"] == Str(id) && id != ""
    ensures AddTransaction(store, uid, tx, nowMillis).Ok?
    ensures id in AddTransaction(store, uid, tx, nowMillis).value
  {
  }

  /** Without an id, or with a falsy one (`""`, `null`, `0`, ...), the record
      is stored under the decimal time stamp. */
  lemma AddTransactionWithoutId(store: Store, uid: Option<string>, tx: Doc, nowMillis: nat)
    requires SignedIn(uid) && !("id" in tx && Truthy(tx["id"]))
    ensures var r := AddTransaction(store, uid, tx, nowMillis);
            r.Ok? && Digits(nowMillis) in r.value
            && r.value[Digits(nowMillis)]["id"] == Str(Digits(nowMillis))
  {
  }

  /** `updateTransaction(id, updates)`: `updateDoc` merges the cleaned
      updates into an existing document and fails on a missing one. */
  function UpdateTransaction(store: Store, uid: Option<string>, id: string, updates: Doc): (r: Result<Store, Error>)
    ensures !SignedIn(uid) ==> r == Err(NotLoggedIn)
    ensures SignedIn(uid) && id !in store ==> r == Err(NotFound)
    ensures r.Ok? <==> SignedIn(uid) && id in store
    ensures r.Ok? ==>
      && r.value.Keys == store.Keys
      && (forall k :: k in store && k != id ==> r.value[k] == store[k])
      && r.value[id].Keys == store[id].Keys + CleanData(updates).Keys
      && (forall f :: f in updates && updates[f] != Undefined ==> r.value[id][f] == updates[f])
      && (forall f :: f in store[id] && (f !in updates || updates[f] == Undefined)
                      ==> r.value[id][f] == store[id][f])
  {
    if !SignedIn(uid) then Err(NotLoggedIn)
    else if id !in store then Err(NotFound)
    else Ok(store[id := store[id] + CleanData(updates)])
  }

  /** `deleteTransaction(id)`: the document is gone, nothing else changes;
      deleting a missing document is not an error. */
  function DeleteTransaction(store: Store, uid: Option<string>, id: string): (r: Result<Store, Error>)
    ensures !SignedIn(uid) <==> r == Err(NotLoggedIn)
    ensures r.Ok? <==> SignedIn(uid)
    ensures r.Ok? ==> r.value.Keys == store.Keys - {id}
    ensures r.Ok? ==> forall k :: k in r.value ==> r.value[k] == store[k]
  {
    if !SignedIn(uid) then Err(NotLoggedIn) else Ok(store - {id})
  }

  /** Deleting the document an add just wrote leaves the other documents
      exactly as they were before the add. */
  lemma AddThenDelete(store: Store, uid: Option<string>, tx: Doc, nowMillis: nat)
    requires AddTransaction(store, uid, tx, nowMillis).Ok?
    ensures var id := ChooseId(tx, nowMillis).s;
            DeleteTransaction(AddTransaction(store, uid, tx, nowMillis).value, uid, id) == Ok(store - {id})
  {
    var id := ChooseId(tx, nowMillis).s;
    var added := AddTransaction(store, uid, tx, nowMillis).value;
    assert added - {id} == store - {id};
  }

  /** Every document written by add or update is free of undefined fields,
      so a store built only by these operations never holds one. */
  predicate StoreClean(store: Store) {
    forall k :: k in store ==> NoUndefined(store[k])
  }

  lemma OperationsKeepStoreClean(store: Store, uid: Option<string>, id: string, d: Doc, nowMillis: nat)
    requires StoreClean(store)
    ensures AddTransaction(store, uid, d, nowMillis).Ok? ==> StoreClean(AddTransaction(store, uid, d, nowMillis).value)
    ensures UpdateTransaction(store, uid, id, d).Ok? ==> StoreClean(UpdateTransaction(store, uid, id, d).value)
    ensures DeleteTransaction(store, uid, id).Ok? ==> StoreClean(DeleteTransaction(store, uid, id).value)
  {
  }
}

=== FILE: wrappers.dfy ===
/** Failure-carrying result types shared by the whole model. */
module Wrappers {

  /** A value that may be absent; `None` plays the role of JavaScript's `null`/`undefined`. */
  datatype Option<+T> = None | Some(value: T)

  /** The outcome of an operation that can throw. */
  datatype Result<+T, +E> = Ok(value: T) | Err(error: E)
}
